=== FILE: README.md ===
# ShareRoom chat backend — Dafny model

ShareRoom is a room-scoped chat server. Messages (text, images, audio and
other files) are stored in an SQLite `messages` table and pushed over
socket.io to every socket in the message's room. A message expires seven
days after it is created. An hourly task deletes expired rows and tries to
delete the uploaded files behind them.

This project models that core with immutable data and pure functions:

- `MessageStore` (`message_store.dfy`): the `messages` table as a sequence of
  rows plus its AUTOINCREMENT sequence. It covers the column defaults
  (`id`, `room`, `timestamp`, `expiresAt`), the insert statement, the
  active-message query, the cleanup `DELETE` and the expired-attachment
  `SELECT`. Time is integer seconds. Each statement receives the value its
  `CURRENT_TIMESTAMP` would have as a `now` parameter.
- `Reaper` (`reaper.dfy`): one cycle of the hourly task. It takes the table,
  the cutoffs, whether each statement succeeds and an oracle for which
  `fs.unlink` calls succeed. It returns the table afterwards, the cleanup
  result, the unlink requests and what each unlink reported. The cycle is
  modelled twice: as written (delete, then select) and capture-first
  (select, then delete).
- `Rooms` (`rooms.dfy`): socket.io's room table together with the
  `currentRoom` field that the `join room` handler keeps on each socket.
  `io.to(room)` addresses the room table.
- `Server` (`server.dfy`): the `GET /messages`, `POST /upload`, `join room`
  and `send message` handlers. Each is one step from (table, rooms) to a new
  state, a response and the socket events it emits.
- `JsStrings` (`js_strings.dfy`): JavaScript truthiness, `startsWith` and
  `trim`, where `trim` uses the full ECMAScript white-space and
  line-terminator set.
- `Seqs` (`seqs.dfy`) and `Wrappers` (`wrappers.dfy`): generic helpers for
  order-preserving filter, insertion sort, `Option` and `Result`.

Every database call can fail, and whether it does is a boolean parameter
(`writeOk`, `queryOk`, `deleteOk`, `selectOk`). An insert also fails once the
AUTOINCREMENT sequence reaches SQLite's largest rowid, 2^63 - 1.

The cleanup at db.js:23 deletes rows with `expiresAt < now`, while the query
at server.js:48 lists rows with `expiresAt > now`. A row whose `expiresAt`
equals `now` is therefore neither listed nor deleted
(`MessageStore.BoundaryRowNeitherActiveNorReaped`).

## Model

| member | source | states |
|---|---|---|
| MessageStore.Insert | db.js:9-17 | An insert gets id = previous sequence value + 1 and is appended. `timestamp` is `now` and `expiresAt` is `timestamp + 7 days`. `room` is `'general'` when not supplied. The insert fails exactly when the write fails or the sequence is exhausted. Validity of the table is preserved, and the new id is above every existing id. |
| MessageStore.QueryActive | server.js:46-50 | Returns exactly the rows of the room with `expiresAt > now`, each as often as in the table, ordered by ascending timestamp. |
| MessageStore.DeleteExpired | db.js:23-25 | Keeps exactly the rows with `expiresAt >= now`. Kept plus deleted rows are the original rows. `changes` equals the number of rows with `expiresAt < now`. The sequence is untouched and validity is preserved. |
| MessageStore.SelectExpiredAttachments | db.js:30 | Returns one path per row with `expiresAt < now` and type image, audio or file: each path occurs exactly as often as such rows store it. Its paths are exactly the contents of such rows, so text rows are never selected. |
| MessageStore.SelectedContentCount | db.js:30 | A path occurs among the selected contents once per expired attachment row that stores it. |
| MessageStore.DeleteExpiredIdempotent | db.js:23 | A second cleanup at the same `now` deletes 0 rows and leaves the table unchanged. |
| MessageStore.BoundaryRowNeitherActiveNorReaped | db.js:23 | A row with `expiresAt == now` is excluded from the active query (server.js:48, `>`) and survives the cleanup (`<`). |
| MessageStore.InsertedMessageLifetime | db.js:15-16 | A message inserted at t0 is listed in its room exactly for t < t0 + 7 days. It survives cleanup exactly for t <= t0 + 7 days. |
| MessageStore.IdsNeverReused | db.js:10 | After a cleanup, the next insert's id is above the id of every row the table held before, deleted rows included. |
| Reaper.RunCleanup | db.js:23-26 | A successful DELETE keeps exactly the unexpired rows and reports the number removed. A failed one leaves the table as it was. |
| Reaper.RunSelect | db.js:30-31 | A successful SELECT yields the paths of exactly the expired attachment rows, each path as often as such rows store it. A failed one yields no path, so nothing is unlinked. |
| Reaper.UnlinkAll | db.js:32-38 | Every selected path gets exactly one unlink attempt, issued in order, and one report, indexed by its request (the callbacks may complete in any order). A report is a success exactly when the oracle says so for that path, whatever happened to the other paths. |
| Reaper.CycleAsWritten | db.js:22-39 | The cycle as issued: the table and cleanup result are those of the DELETE. The SELECT then sees only rows the DELETE left behind: one request per expired attachment row that survived, each path as often as such rows store it. A failed SELECT requests nothing. Each request gets one report whose outcome is the oracle's for that path. |
| Reaper.CycleCaptureFirst | db.js:22-39 | Capture-then-delete: the rows kept, the count, one request per expired attachment row of the original table (each path as often as such rows store it), and one report per request with the oracle's outcome. Validity is preserved. |
| Reaper.AsWrittenNeverUnlinks | db.js:22-39 | As written, after a successful DELETE a SELECT whose cutoff is not later than the DELETE's issues no unlink request. |
| Reaper.AsWrittenOrphansExpiredImage | db.js:23-30 | For a table holding one expired image, the as-written cycle deletes the row and requests no unlink. Capture-first deletes the row and requests `/uploads/a.png`. |
| Reaper.CaptureFirstUnlinksEveryReapedAttachment | db.js:30-37 | Capture-first: every expired attachment row is deleted and its path requested. Every requested path belongs to a row the cycle deleted. |
| Reaper.UnlinkOutcomesDoNotAffectRows | db.js:32-37 | For any two unlink oracles, the table, the cleanup result and the requests are identical. |
| Reaper.CaptureFirstIdempotent | db.js:23 | A second full cycle at the same `now` deletes 0 rows, leaves the table unchanged and requests nothing. |
| Rooms.Leave | server.js:116-119 | The socket leaves that room and every other membership is unchanged. |
| Rooms.Join | server.js:111-123 | With an empty username or room, the registry is unchanged. Otherwise the socket's current room becomes `room` and it is in that room and no other. Every other socket's memberships are unchanged, and validity is preserved. |
| Rooms.SwitchRoomsOf | server.js:116-123 | After leaving the previous room and joining `room`, the socket belongs to exactly one room, `room`. |
| Rooms.SwitchKeepsOthers | server.js:116-123 | The switch leaves every other socket's memberships unchanged. |
| Rooms.SwitchValid | server.js:116-123 | Room table and `currentRoom` fields stay in agreement, and no empty room is kept. |
| Rooms.SwitchIdempotent | server.js:116-123 | Switching to the room the socket is already in changes nothing. |
| Rooms.JoinIdempotent | server.js:111-123 | Joining the same room twice equals joining it once, so the socket is a member exactly once. |
| Rooms.AudienceIsCurrentRoom | server.js:98 | `io.to(room)` reaches exactly the sockets whose current room is `room`. |
| Rooms.ThreeSocketsScenario | server.js:170 | If A and B join "tech" and C joins "music", a message to "tech" reaches {A, B} and one to "music" reaches {C}. |
| Server.RoomParam | server.js:45 | A missing or empty `room` query parameter selects `'general'`. Otherwise the given room is used. |
| Server.HandleGetMessages | server.js:44-58 | A failed query gives 500. Otherwise 200 with the active query's result for the selected room: exactly its active rows, each once per table occurrence, ordered by timestamp. |
| Server.MessageTypeOf | server.js:70-72 | `image/` gives image. Otherwise `audio/` gives audio. Anything else gives file. The result is never text. |
| Server.StoredPath | server.js:75 | The stored content starts with `/uploads/` and the rest is the file name. |
| Server.StoredPathInjective | server.js:75 | Different file names give different stored paths. |
| Server.HandleUpload | server.js:61-104 | For a multipart request, a missing username, room or file gives 400 and changes neither the table nor the rooms. A failed insert gives 500 with no broadcast. Otherwise the table becomes exactly what `MessageStore.Insert` leaves: one row appended with the derived type and stored path, the next AUTOINCREMENT id, the request time and a seven-day expiry. The table's invariant is kept. The reply and the single broadcast to the room carry that row. |
| Server.ValidateText | server.js:145-149 | A text message is accepted exactly when username and room are present and content is a string that is not all white space. The stored text is non-empty, has no white space at either end, and is the content with white space cut from its ends. |
| Server.HandleSendMessage | server.js:143-173 | Invalid input gives "Invalid message" to the sender only. A failed insert gives "Failed to send message" to the sender only. Otherwise the table becomes exactly what `MessageStore.Insert` leaves for the trimmed text: a text row with the next AUTOINCREMENT id, the event time and a seven-day expiry. The row is broadcast once to the room, and the table's invariant is kept. |
| Server.HandleJoin | server.js:111-140 | A join with empty fields does nothing. Otherwise the registry is updated by `Join` and the joining socket alone receives the room's active snapshot, unless the query fails. |
| Server.UploadBroadcastsOnlySaved | server.js:81-98 | Every upload broadcast carries a row inserted by that request. No row saved means no broadcast. The broadcast reaches exactly the sockets whose current room is the room. |
| Server.SendBroadcastsOnlySaved | server.js:154-170 | Every text broadcast carries a row inserted by that event. No row saved means only an error to the sender. The broadcast reaches exactly the sockets whose current room is the room. |
| JsStrings.Trim | server.js:149 | `trim` leaves no white space at either end and only cuts white space from the ends. |
| JsStrings.TrimUnique | server.js:149 | Among the ways to cut white space from the ends of `s`, the one with none left at either end is `Trim(s)`. |
| JsStrings.TrimIdempotent | server.js:149 | Trimming twice equals trimming once. |
| JsStrings.TrimEmptyIff | server.js:145 | `content.trim().length === 0` exactly when the content is all white space. |

## Findings

| source | as written | input that shows it | evidently intended | confidence | as-written member | corrected member |
|---|---|---|---|---|---|---|
| db.js:22-39 | The cleanup `DELETE` (line 23) is issued before the attachment `SELECT` (line 30), both against `CURRENT_TIMESTAMP`. Whenever the DELETE executes first, the SELECT cannot find the expired attachment rows, so their files are not unlinked. node-sqlite3 does not guarantee that order outside `db.serialize`, and only the schema statements (db.js:7-20) are inside it. In the issued order, a path is unlinked only if its row survived the DELETE: either the DELETE failed, or the SELECT saw a later `CURRENT_TIMESTAMP`. | A table holding one image row with `expiresAt < now` and content `/uploads/a.png`: the row is deleted and no unlink is requested, so the file is orphaned. | Capture the expired attachment paths first, then delete the rows, then unlink each captured path. | medium; not executed (holds whenever the DELETE executes before the SELECT) | Reaper.CycleAsWritten, Reaper.AsWrittenNeverUnlinks, Reaper.AsWrittenOrphansExpiredImage | Reaper.CycleCaptureFirst, Reaper.CaptureFirstUnlinksEveryReapedAttachment |

## Left out

- HTTP plumbing is not modelled: Express routing, `express.static` serving, the HTTP server and `listen` (server.js:8-20, 182-186).
- Multer is not modelled: its disk storage, the 40 MB limit and the accept-all filter (server.js:23-41) belong to the library. Oversized uploads never reach the handler. Multer writes the file to `uploads/` before the handler runs, and the 400 and 500 branches (server.js:65-67, 82-85) return without removing it. That file has no row, so the cleanup task never deletes it; the model does not track files on disk.
- The unique file name built from `Date.now()` and `Math.random()` (server.js:29) is nondeterministic, so the file name is an input.
- socket.io transport is not modelled, including the automatic per-socket rooms named by socket id. `io.to(room)` is modelled as reaching the sockets in the room table only.
- The disconnect handler only logs. Removing a disconnected socket from its rooms happens inside socket.io, so disconnect is not modelled.
- The `timestamp: new Date().toISOString()` field of broadcast messages (server.js:94, 166) is wall-clock formatting, so it is omitted from `Server.Message`.
- SQLite datetime text is replaced by integer seconds. Comparing `'YYYY-MM-DD HH:MM:SS'` strings gives the same order as the seconds they denote for four-digit years.
- `CURRENT_TIMESTAMP` evaluation is replaced by the `now` each statement receives.
- `setInterval` and its one-hour period are not modelled. Nothing bounds how often or when cycles run, and overlapping cycles are not modelled.
- `fs.unlink` has no effect in the model: unlink is a request plus a report whose outcome comes from an arbitrary oracle.
- The unlink request carries the stored `content` path. Joining it onto the server directory with `path.join(__dirname, ...)`, including normalisation, is not modelled.
- Logging is not modelled. That includes the "cleaned up" message, which is printed only when `changes > 0`.
- Schema creation and the `(room, expiresAt)` index (db.js:7-20) have no effect on results, so they are not modelled.
- public/script.js is not modelled: it is browser rendering and event emission.
- Request fields `username` and `room` are strings, with `""` standing for a missing field. Missing and empty are both falsy, so they behave the same. Truthy non-string values for these fields are not modelled.
- `content` of `send message` is a JavaScript value. Its numbers are integers, so NaN and fractions are not modelled. Those values are rejected as non-strings either way.
- Reaper.CycleAsWritten: models only the order in which the two statements are issued (DELETE, then SELECT). db.js runs them outside `db.serialize`, so node-sqlite3 may execute the SELECT first; that execution order behaves like `Reaper.CycleCaptureFirst` only when both statements see the same `CURRENT_TIMESTAMP`. If the DELETE sees a later one, rows that expire between the two instants are deleted without their files being unlinked. That case is not modelled separately.
- A `join room` or `send message` event with no payload or a `null` payload makes the destructuring at server.js:112 or server.js:144 throw a TypeError before any check runs. The handlers take the payload's fields directly, so this exception path is not modelled.
- Server.HandleUpload: a `POST /upload` that is not `multipart/form-data` passes through multer without `req.body` being set. No other body parser is installed, so the destructuring at server.js:62 throws a TypeError and Express's default handler answers 500. The handler models only multipart requests, where an absent field is an empty string.
- Each handler is one atomic step. The model does not cover a socket joining or leaving between an insert being issued and its callback running.
- MessageStore.QueryActive: SQL leaves the order of rows with equal timestamps unspecified. The contract therefore promises only ascending timestamps, although the model's insertion sort keeps table order among ties.
- MessageStore.SelectExpiredAttachments: the SELECT has no `ORDER BY`. The model returns paths in table order and its contract does not fix the order.

=== FILE: js_strings.dfy ===
/** The slice of JavaScript value semantics the request handlers rely on:
    truthiness (`!x`), `typeof x === 'string'`, `String.prototype.startsWith`
    and `String.prototype.trim`. */
module JsStrings {

  /** A field of an inbound event payload. Numbers are integers here. */
  datatype JsValue =
    | Undefined
    | Null
    | Bool(b: bool)
    | Number(n: int)
    | Str(s: string)
    | Object

  /** JavaScript truthiness: `!v` is false exactly for truthy values. */
  predicate Truthy(v: JsValue) {
    match v
    case Undefined => false
    case Null => false
    case Bool(b) => b
    case Number(n) => n != 0
    case Str(s) => s != ""
    case Object => true
  }

  /** The characters `trim` removes: ECMAScript WhiteSpace (TAB, VT, FF,
      ZWNBSP and the Unicode space separators) and LineTerminator (LF, CR,
      LS, PS). */
  const WhiteSpace: set<char> := {
    '\U{9}', '\U{B}', '\U{C}', '\U{FEFF}',
    '\U{20}', '\U{A0}', '\U{1680}',
    '\U{2000}', '\U{2001}', '\U{2002}', '\U{2003}', '\U{2004}', '\U{2005}',
    '\U{2006}', '\U{2007}', '\U{2008}', '\U{2009}', '\U{200A}',
    '\U{202F}', '\U{205F}', '\U{3000}',
    '\U{A}', '\U{D}', '\U{2028}', '\U{2029}'
  }

  /** Every character of `s` is in `ws`. */
  predicate AllIn(s: string, ws: set<char>) {
    forall i :: 0 <= i < |s| ==> s[i] in ws
  }

  /** `s` neither starts nor ends with a character of `ws`. */
  predicate Trimmed(s: string, ws: set<char>) {
    s != [] ==> s[0] !in ws && s[|s| - 1] !in ws
  }

  /** `r` is `s` with some characters of `ws` cut from each end. */
  ghost predicate CutFrom(r: string, s: string, ws: set<char>) {
    exists i, j :: 0 <= i <= j <= |s| && r == s[i..j]
      && AllIn(s[..i], ws) && AllIn(s[j..], ws)
  }

  /** `s.startsWith(prefix)`. */
  predicate StartsWith(s: string, prefix: string) {
    |prefix| <= |s| && s[..|prefix|] == prefix
  }

  /** The length of the run of `ws` characters that starts `s`. */
  function LeadingRun(s: string, ws: set<char>): (k: nat)
    ensures k <= |s|
    ensures AllIn(s[..k], ws)
    ensures k < |s| ==> s[k] !in ws
    decreases |s|
  {
    if s == [] || s[0] !in ws then 0
    else
      var k := LeadingRun(s[1..], ws);
      assert s[..k + 1] == [s[0]] + s[1..][..k];
      1 + k
  }

  /** Appending a character of `ws` to a string of them gives one. */
  lemma AllInSnoc(t: string, c: char, ws: set<char>)
    requires AllIn(t, ws) && c in ws
    ensures AllIn(t + [c], ws)
  {
    forall k | 0 <= k < |t + [c]| ensures (t + [c])[k] in ws {
      if k < |t| { assert (t + [c])[k] == t[k]; }
    }
  }

  /** Where the run of `ws` characters that ends `s` begins. */
  function TrailingRun(s: string, ws: set<char>): (k: nat)
    ensures k <= |s|
    ensures AllIn(s[k..], ws)
    ensures 0 < k ==> s[k - 1] !in ws
    decreases |s|
  {
    if s == [] || s[|s| - 1] !in ws then |s|
    else
      var k := TrailingRun(s[..|s| - 1], ws);
      AllInSnoc(s[..|s| - 1][k..], s[|s| - 1], ws);
      assert s[k..] == s[..|s| - 1][k..] + [s[|s| - 1]];
      k
  }

  /** `s` with the runs of `ws` characters at both ends removed. */
  function Strip(s: string, ws: set<char>): (r: string)
    ensures Trimmed(r, ws)
    ensures CutFrom(r, s, ws)
  {
    var i := LeadingRun(s, ws);
    var t := s[i..];
    var j := i + TrailingRun(t, ws);
    assert t[j - i..] == s[j..];
    assert AllIn(s[..i], ws) && AllIn(s[j..], ws);
    assert i < j ==> s[i..j][0] == s[i] && s[i..j][j - i - 1] == t[j - i - 1];
    s[i..j]
  }

  /** `s.trim()`. */
  function Trim(s: string): (r: string)
    ensures Trimmed(r, WhiteSpace)
    ensures CutFrom(r, s, WhiteSpace)
  {
    Strip(s, WhiteSpace)
  }

  /** The leading run is determined by where it stops. */
  lemma LeadingUnique(s: string, ws: set<char>, i: nat)
    requires i <= |s| && AllIn(s[..i], ws)
    requires i < |s| ==> s[i] !in ws
    ensures i == LeadingRun(s, ws)
  {
    var a := LeadingRun(s, ws);
    if a != i {
      assert false;
    }
  }

  /** The trailing run is determined by where it starts. */
  lemma TrailingUnique(s: string, ws: set<char>, j: nat)
    requires j <= |s| && AllIn(s[j..], ws)
    requires 0 < j ==> s[j - 1] !in ws
    ensures j == TrailingRun(s, ws)
  {
    var b := TrailingRun(s, ws);
    if b != j {
      assert false;
    }
  }

  /** When the parts of `s` around the empty slice `s[i..j]` are all in
      `ws`, so is `s`. */
  lemma AllInJoin(s: string, ws: set<char>, i: nat, j: nat)
    requires i == j <= |s| && AllIn(s[..i], ws) && AllIn(s[j..], ws)
    ensures AllIn(s, ws)
  {
    forall k | 0 <= k < |s| ensures s[k] in ws {
      if k < i { assert s[..i][k] == s[k]; } else { assert s[j..][k - j] == s[k]; }
    }
  }

  /** A string made only of `ws` characters strips to nothing. */
  lemma StripEmptyWhenAllIn(s: string, ws: set<char>)
    requires AllIn(s, ws)
    ensures Strip(s, ws) == []
  {
    if LeadingRun(s, ws) < |s| {
      assert false;
    }
  }

  /** A non-empty cut `s[i..j]` with no `ws` character at either end is
      what stripping returns. */
  lemma StripAt(s: string, ws: set<char>, i: nat, j: nat)
    requires i < j <= |s| && AllIn(s[..i], ws) && AllIn(s[j..], ws)
    requires s[i] !in ws && s[j - 1] !in ws
    ensures s[i..j] == Strip(s, ws)
  {
    LeadingUnique(s, ws, i);
    var t := s[i..];
    assert t[j - i..] == s[j..];
    TrailingUnique(t, ws, j - i);
    assert t[..j - i] == s[i..j];
  }

  /** Stripping is characterised by its contract: the only cut of `s` with no
      `ws` character left at either end is `Strip(s, ws)`. */
  lemma StripUnique(s: string, ws: set<char>, r: string)
    requires CutFrom(r, s, ws) && Trimmed(r, ws)
    ensures r == Strip(s, ws)
  {
    var i, j :| 0 <= i <= j <= |s| && r == s[i..j]
      && AllIn(s[..i], ws) && AllIn(s[j..], ws);
    if i == j {
      AllInJoin(s, ws, i, j);
      StripEmptyWhenAllIn(s, ws);
    } else {
      assert s[i] == r[0] && s[j - 1] == r[|r| - 1];
      StripAt(s, ws, i, j);
    }
  }

  /** `trim` is characterised by its contract: the only white-space cut of
      `s` with no white space left at either end is `Trim(s)`. */
  lemma TrimUnique(s: string, r: string)
    requires CutFrom(r, s, WhiteSpace) && Trimmed(r, WhiteSpace)
    ensures r == Trim(s)
  {
    StripUnique(s, WhiteSpace, r);
  }

  /** Trimming a trimmed string changes nothing. */
  lemma TrimIdempotent(s: string)
    ensures Trim(Trim(s)) == Trim(s)
  {
    var t := Trim(s);
    assert t == t[0..|t|];
    assert t[..0] == [] && t[|t|..] == [];
    assert CutFrom(t, t, WhiteSpace);
    StripUnique(t, WhiteSpace, t);
  }

  /** `s.trim().length === 0` holds exactly when `s` is all white space. */
  lemma TrimEmptyIff(s: string)
    ensures Trim(s) == [] <==> AllIn(s, WhiteSpace)
  {
    if AllIn(s, WhiteSpace) {
      StripEmptyWhenAllIn(s, WhiteSpace);
    }
    if Trim(s) == [] {
      var i, j :| 0 <= i <= j <= |s| && Trim(s) == s[i..j]
        && AllIn(s[..i], WhiteSpace) && AllIn(s[j..], WhiteSpace);
      AllInJoin(s, WhiteSpace, i, j);
    }
  }
}

=== FILE: message_store.dfy ===
/** The `messages` table of db.js and the SQL statements that read and write
    it. Time is integer seconds; each statement receives the value of
    `CURRENT_TIMESTAMP` it would see as `now`. */
module MessageStore {
  import opened Wrappers
  import opened Seqs

  const SecondsPerDay: int := 86400
  /** The `'+7 days'` modifier of the `expiresAt` column default. */
  const RetentionSeconds: int := 7 * SecondsPerDay
  /** The `room` column default. */
  const DefaultRoom: string := "general"
  /** The largest rowid SQLite issues; an AUTOINCREMENT table whose sequence
      has reached it refuses further inserts. */
  const MaxRowId: nat := 0x7FFF_FFFF_FFFF_FFFF

  /** The values written to the `type` column. */
  datatype MessageType = Text | Image | Audio | File {
    function Name(): string {
      match this
      case Text => "text"
      case Image => "image"
      case Audio => "audio"
      case File => "file"
    }
  }

  /** The list in `type IN ('image','audio','file')`. */
  const AttachmentTypes: set<string> := {"image", "audio", "file"}

  predicate IsAttachment(t: MessageType) {
    t.Name() in AttachmentTypes
  }

  /** One row of `messages`. */
  datatype Row = Row(
    id: nat,
    username: string,
    room: string,
    kind: MessageType,
    content: string,
    timestamp: int,
    expiresAt: int)

  /** The table, in rowid order, together with the AUTOINCREMENT sequence
      entry: the largest id ever handed out, which deletions never lower. */
  datatype Store = Store(rows: seq<Row>, lastId: nat)

  datatype StorageError = WriteFailed | TableFull

  datatype Inserted = Inserted(store: Store, row: Row)

  /** A completed `DELETE`: the table afterwards and `this.changes`. */
  datatype Deletion = Deletion(store: Store, changes: nat)

  function IdOf(x: Row): int { x.id }

  function TimestampOf(x: Row): int { x.timestamp }

  /** What holds of every table the statements below can produce. */
  ghost predicate Valid(s: Store) {
    && s.lastId <= MaxRowId
    && (forall x :: x in s.rows ==> 1 <= x.id <= s.lastId)
    && (forall x :: x in s.rows ==> x.expiresAt == x.timestamp + RetentionSeconds)
    && StrictlyIncreasing(s.rows, IdOf)
  }

  /** `WHERE expiresAt < CURRENT_TIMESTAMP`. */
  function ExpiredAt(now: int): Row -> bool {
    (x: Row) => x.expiresAt < now
  }

  /** `WHERE room = ? AND expiresAt > CURRENT_TIMESTAMP`. */
  function ActiveIn(room: string, now: int): Row -> bool {
    (x: Row) => x.room == room && x.expiresAt > now
  }

  /** `WHERE expiresAt < CURRENT_TIMESTAMP AND type IN ('image','audio','file')`. */
  function ExpiredAttachmentAt(now: int): Row -> bool {
    (x: Row) => x.expiresAt < now && IsAttachment(x.kind)
  }

  /** The rows `ExpiredAttachmentAt(now)` selects whose content is `c`. */
  function ExpiredAttachmentWithContent(now: int, c: string): Row -> bool {
    (x: Row) => x.expiresAt < now && IsAttachment(x.kind) && x.content == c
  }

  /** `INSERT INTO messages (username, room, type, content) VALUES (?, ?, ?, ?)`
      with the column defaults filling `id`, `timestamp` and `expiresAt`
      (and `room` when it is not supplied). `writeOk` is false when the
      write itself fails. */
  function Insert(s: Store, username: string, room: Option<string>, kind: MessageType,
                  content: string, now: int, writeOk: bool): (r: Result<Inserted, StorageError>)
    ensures r.Success? <==> writeOk && s.lastId < MaxRowId
    ensures r.Success? ==>
      && r.value.store.rows == s.rows + [r.value.row]
      && r.value.row.id == r.value.store.lastId == s.lastId + 1
      && r.value.row.username == username
      && r.value.row.room == (if room.Some? then room.value else DefaultRoom)
      && r.value.row.kind == kind
      && r.value.row.content == content
      && r.value.row.timestamp == now
      && r.value.row.expiresAt == r.value.row.timestamp + RetentionSeconds
    ensures r.Success? && Valid(s) ==>
      && Valid(r.value.store)
      && forall x :: x in s.rows ==> x.id < r.value.row.id
  {
    if !writeOk then Failure(WriteFailed)
    else if s.lastId >= MaxRowId then Failure(TableFull)
    else
      var row := Row(s.lastId + 1, username, room.GetOr(DefaultRoom), kind, content,
                     now, now + RetentionSeconds);
      Success(Inserted(Store(s.rows + [row], row.id), row))
  }

  /** The `/messages` and `join room` query: the room's unexpired rows,
      `ORDER BY timestamp ASC`. */
  function QueryActive(s: Store, room: string, now: int): (r: seq<Row>)
    ensures forall x :: x in r <==> x in s.rows && x.room == room && x.expiresAt > now
    ensures SortedBy(r, TimestampOf)
    ensures multiset(r) == multiset(Filter(s.rows, ActiveIn(room, now)))
  {
    var active := Filter(s.rows, ActiveIn(room, now));
    var r := SortBy(active, TimestampOf);
    forall x ensures x in r <==> x in active {
      assert x in r <==> x in multiset(r);
      assert x in active <==> x in multiset(active);
    }
    r
  }

  /** `DELETE FROM messages WHERE expiresAt < CURRENT_TIMESTAMP`. */
  function DeleteExpired(s: Store, now: int): (r: Deletion)
    ensures forall x :: x in r.store.rows <==> x in s.rows && x.expiresAt >= now
    ensures multiset(r.store.rows) + multiset(Filter(s.rows, ExpiredAt(now))) == multiset(s.rows)
    ensures r.changes == |Filter(s.rows, ExpiredAt(now))| == |s.rows| - |r.store.rows|
    ensures r.store.lastId == s.lastId
    ensures Valid(s) ==> Valid(r.store)
  {
    var kept := Filter(s.rows, Not(ExpiredAt(now)));
    FilterPartition(s.rows, ExpiredAt(now));
    FilterIncreasing(s.rows, Not(ExpiredAt(now)), IdOf);
    Deletion(Store(kept, s.lastId), |s.rows| - |kept|)
  }

  /** The `content` column of each row, in order. */
  function Contents(rows: seq<Row>): (r: seq<string>)
    ensures |r| == |rows|
    ensures forall i :: 0 <= i < |rows| ==> r[i] == rows[i].content
  {
    seq(|rows|, i requires 0 <= i < |rows| => rows[i].content)
  }

  /** `SELECT content FROM messages WHERE expiresAt < CURRENT_TIMESTAMP
      AND type IN ('image','audio','file')`. */
  function SelectExpiredAttachments(s: Store, now: int): (r: seq<string>)
    ensures |r| == |Filter(s.rows, ExpiredAttachmentAt(now))|
    ensures forall c :: c in r <==>
      exists x :: x in s.rows && x.expiresAt < now && IsAttachment(x.kind) && x.content == c
    ensures forall c :: multiset(r)[c] == |Filter(s.rows, ExpiredAttachmentWithContent(now, c))|
  {
    var sel := Filter(s.rows, ExpiredAttachmentAt(now));
    forall c ensures multiset(Contents(sel))[c] == |Filter(s.rows, ExpiredAttachmentWithContent(now, c))| {
      SelectedContentCount(s.rows, now, c);
    }
    ContentsMembers(sel);
    Contents(sel)
  }

  /** A path is among the contents exactly when some row stores it. */
  lemma ContentsMembers(rows: seq<Row>)
    ensures forall c :: c in Contents(rows) <==> exists x :: x in rows && x.content == c
  {
    var r := Contents(rows);
    forall c | c in r ensures exists x :: x in rows && x.content == c {
      var i :| 0 <= i < |r| && r[i] == c;
      assert rows[i] in rows;
    }
    forall x | x in rows ensures x.content in r {
      var i :| 0 <= i < |rows| && rows[i] == x;
      assert r[i] == x.content;
    }
  }

  /** Prefixing a row prefixes its content. */
  lemma ContentsCons(x: Row, rows: seq<Row>)
    ensures Contents([x] + rows) == [x.content] + Contents(rows)
  {
  }

  /** Each path appears among the selected contents once per expired
      attachment row that stores it. */
  lemma {:induction false} SelectedContentCount(rows: seq<Row>, now: int, c: string)
    ensures multiset(Contents(Filter(rows, ExpiredAttachmentAt(now))))[c]
         == |Filter(rows, ExpiredAttachmentWithContent(now, c))|
    decreases |rows|
  {
    if rows != [] {
      SelectedContentCount(rows[1..], now, c);
      var x := rows[0];
      var rest := Filter(rows[1..], ExpiredAttachmentAt(now));
      if ExpiredAttachmentAt(now)(x) {
        assert Filter(rows, ExpiredAttachmentAt(now)) == [x] + rest;
        ContentsCons(x, rest);
        assert multiset([x.content] + Contents(rest)) == multiset{x.content} + multiset(Contents(rest));
      }
    }
  }

  /** A second cleanup with the same `now` finds nothing to delete and
      leaves the table as the first one left it. */
  lemma DeleteExpiredIdempotent(s: Store, now: int)
    ensures DeleteExpired(DeleteExpired(s, now).store, now).changes == 0
    ensures DeleteExpired(DeleteExpired(s, now).store, now).store == DeleteExpired(s, now).store
  {
    var once := DeleteExpired(s, now).store;
    FilterKeepsNone(once.rows, ExpiredAt(now));
    FilterKeepsAll(once.rows, Not(ExpiredAt(now)));
  }

  /** The query keeps rows with `expiresAt > now` and the cleanup deletes
      rows with `expiresAt < now`: a row expiring exactly at `now` is neither
      shown nor deleted. */
  lemma BoundaryRowNeitherActiveNorReaped(s: Store, x: Row, now: int)
    requires x in s.rows && x.expiresAt == now
    ensures x !in QueryActive(s, x.room, now)
    ensures x in DeleteExpired(s, now).store.rows
  {
  }

  /** A message inserted at `t0` is listed in its room exactly while the
      clock is before `t0 + 7 days`, and survives every cleanup run up to and
      including that instant. */
  lemma InsertedMessageLifetime(s: Store, username: string, room: string, kind: MessageType,
                                content: string, t0: int, t: int)
    requires Insert(s, username, Some(room), kind, content, t0, true).Success?
    ensures var ins := Insert(s, username, Some(room), kind, content, t0, true).value;
      && (ins.row in QueryActive(ins.store, room, t) <==> t < t0 + RetentionSeconds)
      && (ins.row in DeleteExpired(ins.store, t).store.rows <==> t <= t0 + RetentionSeconds)
  {
  }

  /** AUTOINCREMENT never reuses an id: after any cleanup, the next insert
      gets an id above every id the table ever held, deleted rows included. */
  lemma IdsNeverReused(s: Store, now: int, username: string, room: Option<string>,
                       kind: MessageType, content: string, t: int)
    requires Valid(s)
    requires Insert(DeleteExpired(s, now).store, username, room, kind, content, t, true).Success?
    ensures forall x :: x in s.rows ==>
      x.id < Insert(DeleteExpired(s, now).store, username, room, kind, content, t, true).value.row.id
  {
  }
}

=== FILE: reaper.dfy ===
/** The hourly cleanup task of db.js: a `DELETE` of expired rows, a `SELECT`
    of expired attachment paths, and one `fs.unlink` per selected path. One
    cycle is a pure function of the table, the `now` each statement sees,
    whether each statement succeeds, and an oracle saying which unlinks
    succeed. */
module Reaper {
  import opened MessageStore
  import opened Seqs

  /** What the cleanup callback learns: `this.changes`, or an error. */
  datatype CleanupReport = Cleaned(changes: nat) | CleanupFailed

  /** What an `fs.unlink` callback logs for one path. */
  datatype UnlinkReport = Unlinked(path: string) | UnlinkFailed(path: string)

  /** The state after one cycle, the cleanup result, the paths handed to
      `fs.unlink` (in order) and what each of those unlinks reported. */
  datatype Cycle = Cycle(
    store: Store,
    cleanup: CleanupReport,
    requests: seq<string>,
    reports: seq<UnlinkReport>)

  /** The cleanup `DELETE`; when it fails the table is untouched. */
  function RunCleanup(s: Store, now: int, deleteOk: bool): (r: (Store, CleanupReport))
    ensures deleteOk ==>
      && (forall x :: x in r.0.rows <==> x in s.rows && x.expiresAt >= now)
      && r.1.Cleaned? && r.1.changes + |r.0.rows| == |s.rows|
      && r.1.changes == |Filter(s.rows, ExpiredAt(now))|
    ensures !deleteOk ==> r == (s, CleanupFailed)
    ensures r.0.lastId == s.lastId
    ensures Valid(s) ==> Valid(r.0)
  {
    if deleteOk then
      var d := DeleteExpired(s, now);
      (d.store, Cleaned(d.changes))
    else
      (s, CleanupFailed)
  }

  /** `rows.forEach(row => fs.unlink(...))`: every path is attempted, each
      independently of how the others went. */
  function UnlinkAll(paths: seq<string>, unlinkOk: string -> bool): (r: seq<UnlinkReport>)
    ensures |r| == |paths|
    ensures forall i :: 0 <= i < |paths| ==>
      r[i].path == paths[i] && (r[i].Unlinked? <==> unlinkOk(paths[i]))
  {
    seq(|paths|, i requires 0 <= i < |paths| =>
      if unlinkOk(paths[i]) then Unlinked(paths[i]) else UnlinkFailed(paths[i]))
  }

  /** The attachment `SELECT`; when it fails its callback returns early and
      nothing is unlinked. */
  function RunSelect(s: Store, now: int, selectOk: bool): (r: seq<string>)
    ensures selectOk ==>
      (forall c :: c in r <==>
        exists x :: x in s.rows && x.expiresAt < now && IsAttachment(x.kind) && x.content == c)
    ensures selectOk ==> |r| == |Filter(s.rows, ExpiredAttachmentAt(now))|
    ensures selectOk ==>
      forall c :: multiset(r)[c] == |Filter(s.rows, ExpiredAttachmentWithContent(now, c))|
    ensures !selectOk ==> r == []
  {
    if selectOk then SelectExpiredAttachments(s, now) else []
  }

  /** The cycle as db.js issues it: the `DELETE` first (with cutoff
      `deleteNow`), then the `SELECT` (with cutoff `selectNow`) against the
      table the `DELETE` left behind. */
  function CycleAsWritten(s: Store, deleteNow: int, selectNow: int, deleteOk: bool,
                          selectOk: bool, unlinkOk: string -> bool): (r: Cycle)
    ensures (r.store, r.cleanup) == RunCleanup(s, deleteNow, deleteOk)
    ensures selectOk ==>
      && (forall c :: c in r.requests <==>
           exists x :: x in r.store.rows && x.expiresAt < selectNow && IsAttachment(x.kind) && x.content == c)
      && (forall c :: multiset(r.requests)[c]
            == |Filter(r.store.rows, ExpiredAttachmentWithContent(selectNow, c))|)
    ensures !selectOk ==> r.requests == []
    ensures |r.reports| == |r.requests|
    ensures forall i :: 0 <= i < |r.requests| ==>
      r.reports[i].path == r.requests[i] && (r.reports[i].Unlinked? <==> unlinkOk(r.requests[i]))
  {
    var (after, report) := RunCleanup(s, deleteNow, deleteOk);
    var paths := RunSelect(after, selectNow, selectOk);
    Cycle(after, report, paths, UnlinkAll(paths, unlinkOk))
  }

  /** The cycle with the attachment paths captured before the rows are
      deleted: the `SELECT` and the `DELETE` see the same table and the same
      cutoff. */
  function CycleCaptureFirst(s: Store, now: int, deleteOk: bool, selectOk: bool,
                             unlinkOk: string -> bool): (r: Cycle)
    ensures deleteOk ==>
      && (forall x :: x in r.store.rows <==> x in s.rows && x.expiresAt >= now)
      && r.cleanup.Cleaned? && r.cleanup.changes + |r.store.rows| == |s.rows|
    ensures !deleteOk ==> r.store == s && r.cleanup == CleanupFailed
    ensures selectOk ==>
      && |r.requests| == |Filter(s.rows, ExpiredAttachmentAt(now))|
      && (forall c :: c in r.requests <==>
           exists x :: x in s.rows && x.expiresAt < now && IsAttachment(x.kind) && x.content == c)
      && (forall c :: multiset(r.requests)[c] == |Filter(s.rows, ExpiredAttachmentWithContent(now, c))|)
    ensures !selectOk ==> r.requests == []
    ensures |r.reports| == |r.requests|
    ensures forall i :: 0 <= i < |r.requests| ==>
      r.reports[i].path == r.requests[i] && (r.reports[i].Unlinked? <==> unlinkOk(r.requests[i]))
    ensures Valid(s) ==> Valid(r.store)
  {
    var paths := RunSelect(s, now, selectOk);
    var (after, report) := RunCleanup(s, now, deleteOk);
    Cycle(after, report, paths, UnlinkAll(paths, unlinkOk))
  }

  /** As written, once the `DELETE` has succeeded, a `SELECT` whose cutoff
      is not later than the `DELETE`'s finds no row, so no file is ever
      unlinked. */
  lemma AsWrittenNeverUnlinks(s: Store, deleteNow: int, selectNow: int, selectOk: bool,
                              unlinkOk: string -> bool)
    requires selectNow <= deleteNow
    ensures CycleAsWritten(s, deleteNow, selectNow, true, selectOk, unlinkOk).requests == []
  {
    var after := DeleteExpired(s, deleteNow).store;
    FilterKeepsNone(after.rows, ExpiredAttachmentAt(selectNow));
  }

  /** A table holding one expired image: as written, its row is deleted and
      its file is never unlinked; capturing first unlinks it. */
  lemma AsWrittenOrphansExpiredImage(unlinkOk: string -> bool)
    ensures var row := Row(1, "alice", "general", Image, "/uploads/a.png", 0, RetentionSeconds);
      var s := Store([row], 1);
      var now := RetentionSeconds + 1;
      && CycleAsWritten(s, now, now, true, true, unlinkOk).store.rows == []
      && CycleAsWritten(s, now, now, true, true, unlinkOk).requests == []
      && CycleCaptureFirst(s, now, true, true, unlinkOk).store.rows == []
      && CycleCaptureFirst(s, now, true, true, unlinkOk).requests == ["/uploads/a.png"]
  {
    var row := Row(1, "alice", "general", Image, "/uploads/a.png", 0, RetentionSeconds);
    var s := Store([row], 1);
    var now := RetentionSeconds + 1;
    assert Filter([row], ExpiredAttachmentAt(now)) == [row];
    assert Filter([row], Not(ExpiredAt(now))) == [];
    AsWrittenNeverUnlinks(s, now, now, true, unlinkOk);
  }

  /** Capturing first reconciles files with rows: every expired attachment
      row is deleted and has its path requested, and every requested path
      belongs to a row this cycle deleted. */
  lemma CaptureFirstUnlinksEveryReapedAttachment(s: Store, now: int, unlinkOk: string -> bool)
    ensures var r := CycleCaptureFirst(s, now, true, true, unlinkOk);
      && (forall x :: x in s.rows && x.expiresAt < now && IsAttachment(x.kind) ==>
            x !in r.store.rows && x.content in r.requests)
      && (forall c :: c in r.requests ==>
            exists x :: x in s.rows && x !in r.store.rows && IsAttachment(x.kind) && x.content == c)
  {
  }

  /** Unlink outcomes are reported and nothing more: whichever unlinks fail,
      the table, the cleanup result and the requested paths are the same. */
  lemma UnlinkOutcomesDoNotAffectRows(s: Store, now: int, deleteOk: bool, selectOk: bool,
                                      ok1: string -> bool, ok2: string -> bool)
    ensures CycleCaptureFirst(s, now, deleteOk, selectOk, ok1).store
         == CycleCaptureFirst(s, now, deleteOk, selectOk, ok2).store
    ensures CycleCaptureFirst(s, now, deleteOk, selectOk, ok1).cleanup
         == CycleCaptureFirst(s, now, deleteOk, selectOk, ok2).cleanup
    ensures CycleCaptureFirst(s, now, deleteOk, selectOk, ok1).requests
         == CycleCaptureFirst(s, now, deleteOk, selectOk, ok2).requests
  {
  }

  /** Running a second complete cycle at the same instant deletes nothing and
      requests no unlink. */
  lemma CaptureFirstIdempotent(s: Store, now: int, ok1: string -> bool, ok2: string -> bool)
    ensures var first := CycleCaptureFirst(s, now, true, true, ok1);
      var second := CycleCaptureFirst(first.store, now, true, true, ok2);
      && second.store == first.store
      && second.cleanup == Cleaned(0)
      && second.requests == []
  {
    var first := CycleCaptureFirst(s, now, true, true, ok1);
    DeleteExpiredIdempotent(s, now);
    FilterKeepsNone(first.store.rows, ExpiredAttachmentAt(now));
  }
}

=== FILE: rooms.dfy ===
/** Room membership for the socket handlers of server.js: socket.io's room
    table (`socket.join` / `socket.leave`) together with the `currentRoom`
    field the `join room` handler keeps on each socket. `io.to(room)`
    addresses the room table. */
module Rooms {

  /** A socket id. */
  type ConnId = string

  /** `current` is each socket's `currentRoom`; `rooms` maps a room to the
      sockets in it, and a room left empty is dropped from it. */
  datatype Registry = Registry(current: map<ConnId, string>, rooms: map<string, set<ConnId>>)

  const EmptyRegistry: Registry := Registry(map[], map[])

  /** The sockets `io.to(room)` reaches. */
  function Members(rooms: map<string, set<ConnId>>, room: string): set<ConnId> {
    if room in rooms then rooms[room] else {}
  }

  function Audience(g: Registry, room: string): set<ConnId> {
    Members(g.rooms, room)
  }

  /** The rooms a socket is in. */
  function RoomsOf(g: Registry, conn: ConnId): set<string> {
    set q | q in g.rooms && conn in g.rooms[q]
  }

  /** The two views agree: a socket is in exactly the room its `currentRoom`
      names, and no room is kept empty. */
  ghost predicate Valid(g: Registry) {
    && (forall c :: c in g.current ==>
          g.current[c] != "" && g.current[c] in g.rooms && c in g.rooms[g.current[c]])
    && (forall q, c :: q in g.rooms && c in g.rooms[q] ==> c in g.current && g.current[c] == q)
    && (forall q :: q in g.rooms ==> g.rooms[q] != {})
  }

  /** `socket.leave(room)`. */
  function Leave(rooms: map<string, set<ConnId>>, conn: ConnId, room: string): (r: map<string, set<ConnId>>)
    ensures conn !in Members(r, room)
    ensures forall c :: c != conn ==> (c in Members(r, room) <==> c in Members(rooms, room))
    ensures forall q :: q != room ==> Members(r, q) == Members(rooms, q) && (q in r <==> q in rooms)
    ensures (forall q :: q in rooms ==> rooms[q] != {}) ==> (forall q :: q in r ==> r[q] != {})
  {
    if room !in rooms then rooms
    else
      var rest := rooms[room] - {conn};
      if rest == {} then rooms - {room} else rooms[room := rest]
  }

  /** The socket leaves its previous room, if it has one, and joins `room`. */
  function Switch(g: Registry, conn: ConnId, room: string): Registry {
    var rooms :=
      if conn in g.current && g.current[conn] != "" then Leave(g.rooms, conn, g.current[conn])
      else g.rooms;
    Registry(g.current[conn := room], rooms[room := Members(rooms, room) + {conn}])
  }

  /** Other sockets' memberships are untouched by a switch. */
  lemma SwitchKeepsOthers(g: Registry, conn: ConnId, room: string)
    requires Valid(g)
    ensures forall q, c :: c != conn ==>
      (c in Audience(Switch(g, conn, room), q) <==> c in Audience(g, q))
  {
  }

  /** After a switch the socket is in `room` and in no other room. */
  lemma SwitchRoomsOf(g: Registry, conn: ConnId, room: string)
    requires Valid(g)
    ensures RoomsOf(Switch(g, conn, room), conn) == {room}
  {
    var r := Switch(g, conn, room);
    forall q | q in r.rooms && conn in r.rooms[q] ensures q == room {
      if q != room {
        assert false;
      }
    }
  }

  /** A switch to a non-empty room keeps the two views in agreement. */
  lemma SwitchValid(g: Registry, conn: ConnId, room: string)
    requires Valid(g) && room != ""
    ensures Valid(Switch(g, conn, room))
  {
    var r := Switch(g, conn, room);
    SwitchKeepsOthers(g, conn, room);
    forall c | c in r.current
      ensures r.current[c] != "" && r.current[c] in r.rooms && c in r.rooms[r.current[c]]
    {
      if c != conn {
        assert c in Audience(g, g.current[c]);
      }
    }
    SwitchRoomsOf(g, conn, room);
    forall q, c | q in r.rooms && c in r.rooms[q] ensures c in r.current && r.current[c] == q {
      if c != conn {
        assert c in Audience(g, q);
      } else {
        assert q in RoomsOf(r, conn);
      }
    }
  }

  /** The three facts above, for whichever registry the handler is given. */
  lemma SwitchFacts(g: Registry, conn: ConnId, room: string)
    ensures Valid(g) && room != "" ==>
      && Valid(Switch(g, conn, room))
      && RoomsOf(Switch(g, conn, room), conn) == {room}
      && (forall q, c :: c != conn ==>
            (c in Audience(Switch(g, conn, room), q) <==> c in Audience(g, q)))
  {
    if Valid(g) && room != "" {
      SwitchKeepsOthers(g, conn, room);
      SwitchRoomsOf(g, conn, room);
      SwitchValid(g, conn, room);
    }
  }

  /** The `join room` handler: ignored unless `username` and `room` are both
      non-empty; otherwise the socket leaves its previous room (if any),
      joins `room`, and records it as its current room. */
  function Join(g: Registry, conn: ConnId, username: string, room: string): (r: Registry)
    ensures username == "" || room == "" ==> r == g
    ensures username != "" && room != "" ==>
      && r.current == g.current[conn := room]
      && conn in Audience(r, room)
    ensures username != "" && room != "" && Valid(g) ==>
      && Valid(r)
      && RoomsOf(r, conn) == {room}
      && (forall q, c :: c != conn ==> (c in Audience(r, q) <==> c in Audience(g, q)))
  {
    if username == "" || room == "" then g
    else
      SwitchFacts(g, conn, room);
      Switch(g, conn, room)
  }

  /** `io.to(room)` reaches exactly the sockets whose current room is
      `room`. */
  lemma AudienceIsCurrentRoom(g: Registry, room: string)
    requires Valid(g)
    ensures Audience(g, room) == set c | c in g.current && g.current[c] == room
  {
  }

  /** Switching to the room a socket is already in changes nothing. */
  lemma SwitchIdempotent(g: Registry, conn: ConnId, room: string)
    requires room != ""
    ensures Switch(Switch(g, conn, room), conn, room) == Switch(g, conn, room)
  {
    var g1 := Switch(g, conn, room);
    var g2 := Switch(g1, conn, room);
    assert g1.current[conn] == room;
    var left := Leave(g1.rooms, conn, room);
    var rest := g1.rooms[room] - {conn};
    assert g2 == Registry(g1.current[conn := room], left[room := Members(left, room) + {conn}]);
    if rest == {} {
      assert g1.rooms[room] == {conn};
      assert left == g1.rooms - {room};
      assert Members(left, room) == {};
      assert Members(left, room) + {conn} == {conn};
      assert g2.rooms == left[room := {conn}];
    } else {
      assert left == g1.rooms[room := rest];
      assert rest + {conn} == g1.rooms[room];
    }
    assert g2.rooms == g1.rooms;
    assert g2.current == g1.current;
  }

  /** Joining the room a socket is already in changes nothing, so the socket
      is a member of it exactly once. */
  lemma JoinIdempotent(g: Registry, conn: ConnId, username: string, room: string)
    ensures Join(Join(g, conn, username, room), conn, username, room) == Join(g, conn, username, room)
  {
    if username != "" && room != "" {
      SwitchIdempotent(g, conn, room);
    }
  }

  /** A and B join "tech" and C joins "music": a message to "tech" reaches A
      and B and not C. */
  lemma ThreeSocketsScenario()
    ensures var g := Join(Join(Join(EmptyRegistry, "A", "ann", "tech"), "B", "bob", "tech"),
                          "C", "cy", "music");
      Audience(g, "tech") == {"A", "B"} && Audience(g, "music") == {"C"}
  {
  }
}

=== FILE: seqs.dfy ===
/** Order-preserving filtering and sorting of sequences: the SQL `WHERE`,
    `DELETE ... WHERE` and `ORDER BY` clauses of the store are built from these. */
module Seqs {

  /** The complement of a row predicate. */
  function Not<T>(p: T -> bool): T -> bool {
    x => !p(x)
  }

  /** The elements of `s` satisfying `p`, in their original order. */
  function Filter<T(!new)>(s: seq<T>, p: T -> bool): (r: seq<T>)
    ensures |r| <= |s|
    ensures forall x :: x in r <==> x in s && p(x)
    decreases |s|
  {
    if s == [] then []
    else if p(s[0]) then [s[0]] + Filter(s[1..], p)
    else Filter(s[1..], p)
  }

  /** Filtering splits a sequence in two: what is kept and what is dropped
      together are exactly the original elements, and their lengths add up. */
  lemma {:induction false} FilterPartition<T(!new)>(s: seq<T>, p: T -> bool)
    ensures multiset(Filter(s, p)) + multiset(Filter(s, Not(p))) == multiset(s)
    ensures |Filter(s, p)| + |Filter(s, Not(p))| == |s|
    decreases |s|
  {
    if s != [] {
      FilterPartition(s[1..], p);
      assert s == [s[0]] + s[1..];
    }
  }

  /** A filter that keeps every element is the identity. */
  lemma {:induction false} FilterKeepsAll<T(!new)>(s: seq<T>, p: T -> bool)
    requires forall x :: x in s ==> p(x)
    ensures Filter(s, p) == s
    decreases |s|
  {
    if s != [] {
      assert s[0] in s;
      forall x | x in s[1..] ensures p(x) {
        assert x in s;
      }
      FilterKeepsAll(s[1..], p);
      assert s == [s[0]] + s[1..];
    }
  }

  /** A filter that keeps nothing is empty. */
  lemma FilterKeepsNone<T(!new)>(s: seq<T>, p: T -> bool)
    requires forall x :: x in s ==> !p(x)
    ensures Filter(s, p) == []
  {
    if Filter(s, p) != [] {
      assert Filter(s, p)[0] in Filter(s, p);
    }
  }

  /** `s` is ordered by `key`, ties allowed. */
  predicate SortedBy<T>(s: seq<T>, key: T -> int) {
    forall i, j :: 0 <= i < j < |s| ==> key(s[i]) <= key(s[j])
  }

  /** Prefixing a sorted sequence with an element no larger than any of its
      elements keeps it sorted. */
  lemma ConsSorted<T>(h: T, t: seq<T>, key: T -> int)
    requires SortedBy(t, key)
    requires forall j :: 0 <= j < |t| ==> key(h) <= key(t[j])
    ensures SortedBy([h] + t, key)
  {
    forall i, j | 0 <= i < j < |[h] + t| ensures key(([h] + t)[i]) <= key(([h] + t)[j]) {
      if i > 0 {
        assert ([h] + t)[i] == t[i - 1];
      }
      assert ([h] + t)[j] == t[j - 1];
    }
  }

  /** Places `x` into the sorted sequence `s`, before the first element whose
      key is not smaller. */
  function InsertBy<T>(x: T, s: seq<T>, key: T -> int): (r: seq<T>)
    requires SortedBy(s, key)
    ensures SortedBy(r, key)
    ensures multiset(r) == multiset(s) + multiset{x}
    decreases |s|
  {
    if s == [] || key(x) <= key(s[0]) then
      ConsSorted(x, s, key);
      [x] + s
    else
      var t := InsertBy(x, s[1..], key);
      InsertByLowerBound(x, s, t, key);
      ConsSorted(s[0], t, key);
      assert s == [s[0]] + s[1..];
      [s[0]] + t
  }

  /** Every element of `t`, a rearrangement of `s[1..]` plus `x`, has a key
      at least that of `s[0]` when `x` does. */
  lemma InsertByLowerBound<T>(x: T, s: seq<T>, t: seq<T>, key: T -> int)
    requires s != [] && SortedBy(s, key) && key(s[0]) < key(x)
    requires multiset(t) == multiset(s[1..]) + multiset{x}
    ensures forall j :: 0 <= j < |t| ==> key(s[0]) <= key(t[j])
  {
    forall j | 0 <= j < |t| ensures key(s[0]) <= key(t[j]) {
      assert t[j] in multiset(t);
      if t[j] != x {
        assert t[j] in multiset(s[1..]);
        assert t[j] in s[1..];
        var k :| 0 <= k < |s[1..]| && s[1..][k] == t[j];
        assert s[k + 1] == t[j];
      }
    }
  }

  /** An insertion sort by `key`: the result is ordered and holds exactly the
      elements of `s`. */
  function SortBy<T>(s: seq<T>, key: T -> int): (r: seq<T>)
    ensures SortedBy(r, key)
    ensures multiset(r) == multiset(s)
    decreases |s|
  {
    if s == [] then []
    else
      assert s == [s[0]] + s[1..];
      InsertBy(s[0], SortBy(s[1..], key), key)
  }

  /** Keys strictly increase along `s`. */
  predicate StrictlyIncreasing<T>(s: seq<T>, key: T -> int) {
    forall i, j :: 0 <= i < j < |s| ==> key(s[i]) < key(s[j])
  }

  /** Filtering keeps a strictly increasing sequence strictly increasing:
      it only drops elements, never reorders them. */
  lemma {:induction false} FilterIncreasing<T(!new)>(s: seq<T>, p: T -> bool, key: T -> int)
    ensures StrictlyIncreasing(s, key) ==> StrictlyIncreasing(Filter(s, p), key)
    decreases |s|
  {
    if s != [] && StrictlyIncreasing(s, key) {
      var t := Filter(s[1..], p);
      FilterIncreasing(s[1..], p, key);
      if p(s[0]) {
        forall j | 0 <= j < |t| ensures key(s[0]) < key(t[j]) {
          assert t[j] in s[1..];
          var k :| 0 <= k < |s[1..]| && s[1..][k] == t[j];
          assert s[k + 1] == t[j];
        }
        assert Filter(s, p) == [s[0]] + t;
      }
    }
  }
}

=== FILE: server.dfy ===
/** The request and socket handlers of server.js, each as one step from the
    server state to a new state, a response and the socket events sent. The
    outcome of each database call is a parameter (`writeOk`, `queryOk`). */
module Server {
  import opened Wrappers
  import opened JsStrings
  import opened MessageStore
  import opened Rooms

  datatype State = State(store: Store, registry: Registry)

  /** `req.file` as multer hands it over; the stored file name is chosen by
      multer's storage engine and arrives here as given. */
  datatype UploadedFile = UploadedFile(mimetype: string, filename: string)

  /** The message object built in an insert callback, without its
      wall-clock `timestamp` string. */
  datatype Message = Message(id: nat, username: string, room: string, kind: MessageType, content: string)

  /** Socket events the handlers emit. */
  datatype Event =
    | NewMessage(message: Message)
    | InitMessages(room: string, messages: seq<Row>)
    | ErrorEvent(text: string)

  /** One `emit`, with the sockets it reaches. */
  datatype Emit = Emit(to: set<ConnId>, event: Event)

  /** The JSON reply of an HTTP handler. */
  datatype Response =
    | BadRequest(error: string)
    | ServerError(error: string)
    | MessageJson(message: Message)
    | RowsJson(rows: seq<Row>)
  {
    function Status(): nat {
      match this
      case BadRequest(_) => 400
      case ServerError(_) => 500
      case _ => 200
    }
  }

  datatype HttpOutcome = HttpOutcome(state: State, response: Response, emits: seq<Emit>)

  datatype SocketOutcome = SocketOutcome(state: State, emits: seq<Emit>)

  /** The URL prefix under which uploads are served. */
  const UploadsPrefix: string := "/uploads/"

  /** The message object for a freshly inserted row. */
  function MessageOf(x: Row): Message {
    Message(x.id, x.username, x.room, x.kind, x.content)
  }

  /** `req.query.room || 'general'`. */
  function RoomParam(query: Option<string>): (room: string)
    ensures room != ""
    ensures query.Some? && query.value != "" ==> room == query.value
    ensures query.None? || query == Some("") ==> room == DefaultRoom
  {
    if query.Some? && query.value != "" then query.value else DefaultRoom
  }

  /** `GET /messages`: the room's unexpired messages, oldest first, or 500
      when the query fails. */
  function HandleGetMessages(s: Store, query: Option<string>, now: int, queryOk: bool): (r: Response)
    ensures !queryOk ==> r == ServerError("Failed to load messages") && r.Status() == 500
    ensures queryOk ==>
      && r.RowsJson? && r.Status() == 200
      && (forall x :: x in r.rows <==> x in s.rows && x.room == RoomParam(query) && x.expiresAt > now)
      && Seqs.SortedBy(r.rows, TimestampOf)
      && multiset(r.rows) == multiset(Seqs.Filter(s.rows, ActiveIn(RoomParam(query), now)))
      && r.rows == QueryActive(s, RoomParam(query), now)
  {
    if !queryOk then ServerError("Failed to load messages")
    else RowsJson(QueryActive(s, RoomParam(query), now))
  }

  /** The `type` of an uploaded file, from its MIME type. */
  function MessageTypeOf(mimetype: string): (t: MessageType)
    ensures t != Text
    ensures t == Image <==> StartsWith(mimetype, "image/")
    ensures t == Audio <==> !StartsWith(mimetype, "image/") && StartsWith(mimetype, "audio/")
    ensures t == File <==> !StartsWith(mimetype, "image/") && !StartsWith(mimetype, "audio/")
  {
    if StartsWith(mimetype, "image/") then Image
    else if StartsWith(mimetype, "audio/") then Audio
    else File
  }

  /** The `content` stored for an upload: its URL under `/uploads/`, from
      which the file name can be read back. */
  function StoredPath(filename: string): (path: string)
    ensures StartsWith(path, UploadsPrefix)
    ensures path[|UploadsPrefix|..] == filename
  {
    UploadsPrefix + filename
  }

  /** Distinct stored files get distinct paths. */
  lemma StoredPathInjective(f1: string, f2: string)
    requires StoredPath(f1) == StoredPath(f2)
    ensures f1 == f2
  {
    assert f1 == StoredPath(f1)[|UploadsPrefix|..];
  }

  /** `POST /upload`: 400 unless username, room and file are all present;
      otherwise insert the row and, only if that succeeds, broadcast it to
      the room and return it. */
  function HandleUpload(st: State, username: string, room: string, file: Option<UploadedFile>,
                        now: int, writeOk: bool): (r: HttpOutcome)
    ensures r.state.registry == st.registry
    ensures username == "" || room == "" || file.None? ==>
      r == HttpOutcome(st, BadRequest("Missing required fields"), []) && r.response.Status() == 400
    ensures r.response.ServerError? ==> r.state == st && r.emits == []
    ensures username != "" && room != "" && file.Some? && !(writeOk && st.store.lastId < MaxRowId) ==>
      r == HttpOutcome(st, ServerError("Failed to save file record"), [])
    ensures r.response.MessageJson? ==>
      && username != "" && room != "" && file.Some?
      && |r.state.store.rows| == |st.store.rows| + 1
      && r.state.store.rows[..|st.store.rows|] == st.store.rows
      && var row := r.state.store.rows[|st.store.rows|];
         && r.response.message == MessageOf(row)
         && row.username == username && row.room == room
         && row.kind == MessageTypeOf(file.value.mimetype)
         && row.content == StoredPath(file.value.filename)
         && row.id == r.state.store.lastId == st.store.lastId + 1
         && row.timestamp == now
         && row.expiresAt == now + RetentionSeconds
         && r.emits == [Emit(Audience(st.registry, room), NewMessage(MessageOf(row)))]
    ensures r.response.MessageJson? ==>
      r.state.store == Insert(st.store, username, Some(room), MessageTypeOf(file.value.mimetype),
                              StoredPath(file.value.filename), now, writeOk).value.store
    ensures MessageStore.Valid(st.store) ==> MessageStore.Valid(r.state.store)
    ensures username != "" && room != "" && file.Some? && writeOk && st.store.lastId < MaxRowId ==>
      r.response.MessageJson?
  {
    if username == "" || room == "" || file.None? then
      HttpOutcome(st, BadRequest("Missing required fields"), [])
    else
      var kind := MessageTypeOf(file.value.mimetype);
      var path := StoredPath(file.value.filename);
      match Insert(st.store, username, Some(room), kind, path, now, writeOk)
      case Failure(_) =>
        HttpOutcome(st, ServerError("Failed to save file record"), [])
      case Success(ins) =>
        assert ins.store.rows[..|st.store.rows|] == st.store.rows;
        var m := MessageOf(ins.row);
        HttpOutcome(State(ins.store, st.registry), MessageJson(m),
                    [Emit(Audience(st.registry, room), NewMessage(m))])
  }

  /** The `send message` check: username and room present, content a string
      that is not all white space; the result is the content to store. */
  function ValidateText(username: string, room: string, content: JsValue): (r: Option<string>)
    ensures r.Some? <==> username != "" && room != "" && content.Str? && !AllIn(content.s, WhiteSpace)
    ensures r.Some? ==> r.value != [] && Trimmed(r.value, WhiteSpace) && CutFrom(r.value, content.s, WhiteSpace)
  {
    if username == "" || room == "" || !Truthy(content) || !content.Str? then None
    else
      TrimEmptyIff(content.s);
      var trimmed := Trim(content.s);
      if |trimmed| == 0 then None else Some(trimmed)
  }

  /** `send message`: reject bad input to the sender; otherwise insert the
      trimmed text and, only if that succeeds, broadcast it to the room. */
  function HandleSendMessage(st: State, conn: ConnId, username: string, room: string,
                             content: JsValue, now: int, writeOk: bool): (r: SocketOutcome)
    ensures r.state.registry == st.registry
    ensures ValidateText(username, room, content).None? ==>
      r == SocketOutcome(st, [Emit({conn}, ErrorEvent("Invalid message"))])
    ensures ValidateText(username, room, content).Some? && !(writeOk && st.store.lastId < MaxRowId) ==>
      r == SocketOutcome(st, [Emit({conn}, ErrorEvent("Failed to send message"))])
    ensures r.state.store != st.store ==>
      && ValidateText(username, room, content).Some?
      && |r.state.store.rows| == |st.store.rows| + 1
      && r.state.store.rows[..|st.store.rows|] == st.store.rows
      && var row := r.state.store.rows[|st.store.rows|];
         && row.username == username && row.room == room && row.kind == Text
         && row.content == Trim(content.s)
         && row.id == r.state.store.lastId == st.store.lastId + 1
         && row.timestamp == now
         && row.expiresAt == now + RetentionSeconds
         && r.emits == [Emit(Audience(st.registry, room), NewMessage(MessageOf(row)))]
    ensures r.state.store != st.store ==>
      r.state.store == Insert(st.store, username, Some(room), Text, Trim(content.s), now, writeOk).value.store
    ensures MessageStore.Valid(st.store) ==> MessageStore.Valid(r.state.store)
    ensures ValidateText(username, room, content).Some? && writeOk && st.store.lastId < MaxRowId ==>
      r.state.store != st.store
  {
    match ValidateText(username, room, content)
    case None => SocketOutcome(st, [Emit({conn}, ErrorEvent("Invalid message"))])
    case Some(text) =>
      match Insert(st.store, username, Some(room), Text, text, now, writeOk)
      case Failure(_) => SocketOutcome(st, [Emit({conn}, ErrorEvent("Failed to send message"))])
      case Success(ins) =>
        assert ins.store.rows[..|st.store.rows|] == st.store.rows;
        SocketOutcome(State(ins.store, st.registry),
                      [Emit(Audience(st.registry, room), NewMessage(MessageOf(ins.row)))])
  }

  /** `join room`: ignored without username and room; otherwise switch the
      socket's room and send it the room's snapshot, unless the snapshot
      query fails. */
  function HandleJoin(st: State, conn: ConnId, username: string, room: string, now: int,
                      queryOk: bool): (r: SocketOutcome)
    ensures r.state.store == st.store
    ensures username == "" || room == "" ==> r == SocketOutcome(st, [])
    ensures username != "" && room != "" ==>
      && r.state.registry == Join(st.registry, conn, username, room)
      && r.state.registry.current[conn] == room
      && (queryOk ==> r.emits == [Emit({conn}, InitMessages(room, QueryActive(st.store, room, now)))])
      && (!queryOk ==> r.emits == [])
  {
    if username == "" || room == "" then SocketOutcome(st, [])
    else
      var registry := Join(st.registry, conn, username, room);
      var emits := if queryOk then [Emit({conn}, InitMessages(room, QueryActive(st.store, room, now)))] else [];
      SocketOutcome(State(st.store, registry), emits)
  }

  /** Every `new message` emitted carries a row that the same step inserted. */
  ghost predicate BroadcastsAreSaved(before: Store, after: Store, emits: seq<Emit>) {
    forall e :: e in emits && e.event.NewMessage? ==>
      exists x :: x in after.rows && x !in before.rows && MessageOf(x) == e.event.message
  }

  /** No upload broadcast reaches a room unless its row was saved, and it
      reaches exactly the sockets currently in that room. */
  lemma UploadBroadcastsOnlySaved(st: State, username: string, room: string,
                                  file: Option<UploadedFile>, now: int, writeOk: bool)
    requires MessageStore.Valid(st.store) && Rooms.Valid(st.registry)
    ensures var r := HandleUpload(st, username, room, file, now, writeOk);
      && BroadcastsAreSaved(st.store, r.state.store, r.emits)
      && (r.state.store == st.store ==> r.emits == [])
      && (forall e :: e in r.emits ==>
            e.to == set c | c in st.registry.current && st.registry.current[c] == room)
  {
    var r := HandleUpload(st, username, room, file, now, writeOk);
    AudienceIsCurrentRoom(st.registry, room);
    if r.response.MessageJson? {
      var row := r.state.store.rows[|st.store.rows|];
      assert row in r.state.store.rows;
      assert row !in st.store.rows;
    }
  }

  /** No text broadcast reaches a room unless its row was saved, and it
      reaches exactly the sockets currently in that room. */
  lemma SendBroadcastsOnlySaved(st: State, conn: ConnId, username: string, room: string,
                                content: JsValue, now: int, writeOk: bool)
    requires MessageStore.Valid(st.store) && Rooms.Valid(st.registry)
    ensures var r := HandleSendMessage(st, conn, username, room, content, now, writeOk);
      && BroadcastsAreSaved(st.store, r.state.store, r.emits)
      && (r.state.store == st.store ==> forall e :: e in r.emits ==> e.to == {conn} && e.event.ErrorEvent?)
      && (forall e :: e in r.emits && e.event.NewMessage? ==>
            e.to == set c | c in st.registry.current && st.registry.current[c] == room)
  {
    var r := HandleSendMessage(st, conn, username, room, content, now, writeOk);
    AudienceIsCurrentRoom(st.registry, room);
    if r.state.store != st.store {
      var row := r.state.store.rows[|st.store.rows|];
      assert row in r.state.store.rows;
      assert row !in st.store.rows;
    }
  }
}

=== FILE: wrappers.dfy ===
/** Option and Result, shared by the rest of the model. */
module Wrappers {

  /** A value that may be absent (an omitted field or query parameter). */
  datatype Option<+T> = None | Some(value: T) {

    /** The wrapped value, or `default` when absent. */
    function GetOr(default: T): T {
      match this
      case Some(v) => v
      case None => default
    }
  }

  /** The outcome of an operation that can fail with an error value. */
  datatype Result<+T, +E> = Success(value: T) | Failure(error: E)
}
